=== FILE: README.md ===
# Order tracking: stage calculator and order reducer

A Dafny model of the logic core of an e-commerce demo's order-tracking screen.
Orders move through five time-gated shipment stages ("In Warehouse", "Shipped",
"Arrived in Country", "At Post Office", "Delivered"). Each stage has a cumulative
threshold in milliseconds, counted from the order's creation. The model covers two parts:

- **The stage calculator.** Stage lookup gives the first stage whose threshold is
  strictly greater than the elapsed time, or the last stage if there is none. The
  tracking page shows a per-stage progress vector (0 to 100) and a timeline of
  active stages.
- **The order reducer** `trackingReducer`. It is a pure transition over the order
  list for ADD_ORDER, UPDATE_ORDER_STATUS, DELETE_ORDER, LOAD_ORDERS and unknown
  actions. It also gives the storage write each action makes. The model adds the
  persisted copy of the list, and one tick of the background status updater.

Modules:
- `Options`: the `find` result.
- `Seqs`: `filter` as `Keep`.
- `Stages`: the table, `find`, `findIndex` and the fallback.
- `Progress`: the chart vector and the timeline.
- `Orders`: records, drafts, id completion and relabelling.
- `Reducer`: the reducer and the background tick.
- `Store`: storage as a value, dispatch, and reload.

Modelling choices:
- The clock reading `now` is a parameter.
- Ids the source would generate from the clock and a random number come from an
  `IdSource` oracle.
- An empty string id stands for every falsy id (missing, `null`, `""`). The source
  replaces all of these with a generated id through `||`.
- Fields that are only copied by object spread (title, image, price, total) are an
  opaque `Payload`.
- Progress is an exact `real`.
- Storage is an ordinary value, not a ghost: `Absent`, `Written(orders)` or `Garbage`.
  The reducer returns its effect as `NoWrite`, `SetItem(list)` or `RemoveItem`.
- Parsing has three outcomes (a list, a falsy value, an error). This is because
  `JSON.parse(...) || []` treats a falsy parse as the empty list and sends an error
  to the `catch`.
- The stage functions are stated for any non-empty table. The ordering lemmas need a
  well-formed table: a first duration of at least 0 and non-decreasing durations.
  They are then applied to the concrete table.

Behaviour kept exactly as the code has it:
- Stage 0's window `[0, 0)` is empty.
- "In Warehouse" is the stage only for negative elapsed times.
- At elapsed 0 the stage is already "Shipped" (index 1).
- "Delivered" is the stage from 15000 ms on.
- A new order is stored as "In Warehouse" although its stage at elapsed 0 is "Shipped",
  so the stored status lags the derived stage until the first update
  (`AddedOrdersStartOutOfDate`).
- ADD_ORDER deduplicates only against ids already stored, not within the batch.
- UPDATE_ORDER_STATUS relabels every order carrying the id. It writes storage even when
  nothing changed.
- When an order's status already matches its stage, its products are left alone, even
  if a product's status differs.

## Model

| member | source | states |
|---|---|---|
| Stages.FindIndex | src/pages/Tracking.js:237 | -1 exactly when no stage's duration exceeds the elapsed time; otherwise the index of a stage whose duration exceeds it, with every earlier duration at most the elapsed time (the first match) |
| Stages.Find | src/context/TrackingContext.js:43 | no hit exactly when no duration exceeds the elapsed time; a hit is a stage of the table whose duration exceeds it |
| Stages.CurrentStage | src/context/TrackingContext.js:43 | the assigned stage belongs to the table; it is the first stage whose duration exceeds the elapsed time when there is one, and otherwise the last stage |
| Stages.StageIndex | src/pages/Tracking.js:236-238 | the displayed index is within the table, every earlier stage's threshold has passed, and the index's own threshold is still ahead unless it is the last index |
| Stages.StageIndexFallback | src/pages/Tracking.js:237-238 | the index falls back to the last stage exactly when no duration exceeds the elapsed time |
| Stages.StageIndexMonotone | src/pages/Tracking.js:236-238 | a later elapsed time never gives a smaller stage index, for any table |
| Stages.FindAgreesWithFindIndex | src/context/TrackingContext.js:43 | `find` hits exactly when `findIndex` does, and returns the stage at that index |
| Stages.PageAgreesWithReducer | src/pages/Tracking.js:236-238 | the page's stage index names the same stage that the reducer's lookup assigns |
| Stages.StagesShape | src/context/TrackingContext.js:5-11 | five stages with durations 0, 5000, 10000, 15000 and 20000, starting at 0 and non-decreasing |
| Stages.StagesIndexTable | src/pages/Tracking.js:237-238 | for the concrete table, the index is 0 for negative elapsed, 1 on [0, 5000), 2 on [5000, 10000), 3 on [10000, 15000), and 4 from 15000 on |
| Stages.StagesNames | src/context/TrackingContext.js:43 | "In Warehouse" exactly for negative elapsed, "Delivered" exactly from 15000 ms, and each middle name exactly on its 5000 ms range |
| Progress.StageProgress | src/pages/Tracking.js:55-74 | every entry is in [0, 100]; it is 100 exactly when both ends of the stage's window have passed; it is 0 exactly before the window or at the start of a non-empty window |
| Progress.ProgressVector | src/pages/Tracking.js:55-74 | one entry per stage, each in [0, 100] |
| Progress.TimelineActive | src/pages/Tracking.js:261-264 | one mark per stage, and the first stage is always marked active |
| Progress.StageProgressIsRamp | src/pages/Tracking.js:56-73 | over a non-empty window the three branches equal the linear ramp clamped to [0, 100]; over an empty window the entry is a step from 0 to 100 at the window start, so the division is never reached there |
| Progress.StageProgressMonotoneInTime | src/pages/Tracking.js:55-74 | for a fixed stage, the entry never decreases as the elapsed time grows |
| Progress.FirstStageIsStep | src/pages/Tracking.js:56-73 | with a first duration of 0, stage 0's entry is 100 for every elapsed time of at least 0 and 0 for negative ones |
| Progress.VectorNonIncreasing | src/pages/Tracking.js:55-74 | for a fixed elapsed time and a well-formed table, a later stage's entry is never above an earlier one's |
| Progress.VectorAgreesWithStageIndex | src/pages/Tracking.js:55-74 | entries before the displayed index are 100 and entries after it are 0; the entry at the index is below 100 while the elapsed time is below the last threshold; past the last threshold every entry is 100 |
| Progress.TimelineActiveIffReached | src/pages/Tracking.js:264 | a stage is marked active exactly when it is the first stage or the start of its window has passed |
| Progress.VectorAt4000 | src/pages/Tracking.js:55-74 | at 4000 ms the concrete chart is [100, 80, 0, 0, 0] |
| Progress.VectorFullAfterLastStage | src/pages/Tracking.js:55-74 | from 20000 ms on, every entry of the concrete chart is 100 |
| Seqs.Keep | src/context/TrackingContext.js:29 | filtering keeps exactly the elements that satisfy the predicate, each with its full multiplicity, and never lengthens the list |
| Seqs.KeepPreservesOrder | src/context/TrackingContext.js:64 | two kept elements appear in the filtered list in their original relative order |
| Orders.StampOrderPlaces | src/context/TrackingContext.js:16-26 | a completed draft keeps a supplied order id or else takes the generated one, and likewise for each product id, gets timestamp `now`, gets status "In Warehouse" on the order and on every product, and keeps its products and payload |
| Orders.Relabel | src/context/TrackingContext.js:47-54 | the relabelled order carries the new name on itself and on every product, and nothing else changes |
| Orders.RelabelledIsSynced | src/context/TrackingContext.js:42-54 | an order relabelled to the stage derived from its own timestamp is in sync with that stage afterwards |
| Reducer.UniqueSpec | src/context/TrackingContext.js:28-29 | the accepted new orders are exactly the completed drafts whose ids are not already stored; there are none exactly when every completed id is already stored |
| Reducer.UniqueCounts | src/context/TrackingContext.js:28-29 | each completed draft with a fresh id is accepted exactly as often as the batch yields it, and nothing else is accepted |
| Reducer.AddOrders | src/context/TrackingContext.js:15-37 | a no-op, with no write and the state returned unchanged, exactly when every completed id is already stored; otherwise the old list is kept as a prefix, and the appended part holds each completed draft with a fresh id exactly as often as the batch yields it and nothing else, each placed at `now`; the write is the whole new list |
| Reducer.UpdateStatus | src/context/TrackingContext.js:39-61 | length and positions are kept; orders with another id are unchanged; a matching order already in sync is unchanged; otherwise it is relabelled to its current stage with nothing else changed; every matching order ends in sync; the whole list is always written |
| Reducer.RemoveOrders | src/context/TrackingContext.js:63-66 | the result holds exactly the orders with another id, each with its old multiplicity; an absent id leaves the state equal; the whole list is written |
| Reducer.Reload | src/context/TrackingContext.js:68-76 | a parsed list replaces the orders; a falsy parse or a parse error gives the empty list; the stored entry is removed exactly on a parse error; nothing is written |
| Reducer.TrackingReducer | src/context/TrackingContext.js:13-81 | every write stores exactly the new list; a removal only happens on a failed load, with an empty list; update and delete always write; an unknown action returns the state with no write |
| Reducer.AddOrdersKeepsBatchOrder | src/context/TrackingContext.js:28-35 | two accepted drafts are appended in batch order |
| Reducer.AddOrdersKeepsBatchDuplicates | src/context/TrackingContext.js:28-29 | two drafts with the same fresh id are both appended, so the store then holds that id twice |
| Reducer.AddedOrdersStartOutOfDate | src/context/TrackingContext.js:19-20 | every order just added is out of sync with its stage at `now` ("In Warehouse" against "Shipped") |
| Reducer.UpdateStatusIdempotent | src/context/TrackingContext.js:40-58 | applying UPDATE_ORDER_STATUS twice with the same clock reading gives the same list and write as applying it once |
| Reducer.RemoveOrdersKeepsOrder | src/context/TrackingContext.js:64 | orders that survive DELETE_ORDER keep their relative order |
| Reducer.RemoveOnlyOrder | src/context/TrackingContext.js:64-65 | deleting the only order leaves an empty list, and the empty list is written |
| Reducer.BackgroundTick | src/context/TrackingContext.js:98-106 | after one tick every order is in sync with its stage; orders already in sync are unchanged; the others are relabelled to their current stage with nothing else changed |
| Reducer.TickStep | src/context/TrackingContext.js:98-106 | visiting one more snapshot order (dispatching an update for it only when it is out of sync) keeps untouched or relabelled every order and extends the in-sync prefix by one |
| Store.Dispatch | src/context/TrackingContext.js:36-75 | a dispatch keeps storage in step with the list; a load always puts them in step; a load on a state already in step changes nothing |
| Store.RunKeepsInSync | src/context/TrackingContext.js:36-75 | once storage is in step with the list, it stays in step through any sequence of dispatches |
| Store.ReloadRestoresState | src/context/TrackingContext.js:68-71 | a reload after the initial load and any sequence of adds, updates and deletes gives back exactly the last persisted list |
| Store.LoadCorruptStorage | src/context/TrackingContext.js:72-75 | loading an unparsable entry gives an empty list and clears storage |
| Store.AddDuplicatesIsNoOp | src/context/TrackingContext.js:31-33 | adding only ids already stored changes neither the list nor storage |
| Store.UpdateWritesEvenWhenUnchanged | src/context/TrackingContext.js:60-61 | an update that changes no order still rewrites storage with the whole list |

## Left out

- Rendering, animation, routing, toasts, and Chart.js options and styling (src/pages/Tracking.js:104-206 and 213-235, 239-263, 265-336). These are presentation only. The stage index at lines 236-238 and the timeline's active marks at line 264 are modelled.
- `useTracking` (src/context/TrackingContext.js:119-125), the context accessor. It throws when it is used outside a provider. It only hands out the reducer's state and dispatch, so there is nothing to model beyond the reducer itself.
- Logging: the `console.error` that reports a failed load (src/context/TrackingContext.js:73), and the debug `console.log` calls (src/pages/Tracking.js:43, 52, 76). They have no effect on state or storage.
- The two `setInterval` timers. Time is the parameter `now`. `BackgroundTick` models one tick's body at a single clock reading. In the source, React runs the queued reducer calls later, possibly at a later millisecond.
- Id generation from `Date.now()` and `Math.random()`. It is nondeterministic, so ids come from an `IdSource` oracle. The chance that a generated id collides is not modelled.
- The clock is read once per action. The source reads `Date.now()` again for each order of an ADD_ORDER batch (src/context/TrackingContext.js:19) and for each matching order of UPDATE_ORDER_STATUS (:42). So two orders of one batch may get different timestamps there, while the model gives them the same `now`.
- ADD_ORDER payloads are taken to be arrays of non-null objects, each carrying a `products` array of non-null objects. For any other payload the source throws:
  - at src/context/TrackingContext.js:16 for a payload that is not an array (`action.payload.map`);
  - at :18 for a null draft (`order.id`);
  - at :21 for a draft without `products` (`order.products.map`);
  - at :23 for a null product (`product.id`). The dispatch then fails and nothing is stored. The model has no such failing ADD_ORDER.
- JSON serialisation. Writing a list and parsing it back is assumed to give the same list. Parsed values that are not order lists are not modelled.
- On mount, the provider parses storage itself before it dispatches LOAD_ORDERS (src/context/TrackingContext.js:93). On corrupt storage that parse throws before the reducer's `catch` is reached. The reducer ignores that payload. Only the reducer's own load is modelled.
- The chart-refresh dedup through `JSON.stringify` (src/pages/Tracking.js:37-44). It is a UI refresh optimisation.
- IEEE floating point in the progress division, `toFixed` and `Math.round`. Progress is an exact `real`.
- Stages.StageIndex: stated for non-empty tables only. For an empty table the source would return index -1, but its only table has five stages.
- Reducer.BackgroundTick: does not track the storage writes made by the dispatches inside a tick. By `Reducer.TrackingReducer`, each of them writes the whole list. The tick also takes the snapshot it scans to be the reducer's current state. In the source the snapshot is `ordersRef.current` (src/context/TrackingContext.js:98), which the effect at :87-89 refreshes only after a commit. So the snapshot can lag the state the dispatches run against.

=== FILE: options.dfy ===
/** The result of searching a list: a hit, or nothing found. */
module Options {

  datatype Option<+T> = None | Some(value: T) {

    /** The value of a hit, or `default` for a miss. */
    function GetOr(default: T): T {
      match this
      case Some(v) => v
      case None => default
    }
  }
}

=== FILE: orders.dfy ===
/**
  Order and product records as the store keeps them, the partial records handed to
  ADD_ORDER, and how ADD_ORDER completes a partial record (src/context/TrackingContext.js).

  Fields the core only copies through an object spread (title, image, price, total, ...)
  are an opaque `Payload`. An empty id stands for every falsy id the source can see
  (missing, null, empty): the reducer replaces all of them by a generated id.
*/
module Orders {
  import opened Stages

  /** Fields the core never reads or writes, copied through unchanged. */
  datatype Payload = Payload(fields: seq<(string, string)>)

  datatype Product = Product(id: string, status: string, rest: Payload)

  datatype Order = Order(id: string, timestamp: int, status: string, products: seq<Product>, rest: Payload)

  /** A product as submitted to ADD_ORDER: its id may be missing. */
  datatype ProductDraft = ProductDraft(id: string, rest: Payload)

  /** An order as submitted to ADD_ORDER. Any status or timestamp it carries is
      overwritten, so only the id, the products and the payload matter. */
  datatype OrderDraft = OrderDraft(id: string, products: seq<ProductDraft>, rest: Payload)

  /** The ids the source would draw from the clock and a random number: `order(i)`
      for the `i`-th order of a batch, `product(i, j)` for its `j`-th product. */
  datatype IdSource = IdSource(order: nat -> string, product: (nat, nat) -> string)

  /** The status every new order and product receives. */
  const InWarehouse: string := "In Warehouse"

  /** The supplied id when it is present (non-empty), else the generated one. */
  function Resolve(supplied: string, generated: string): string {
    if supplied != "" then supplied else generated
  }

  function StampProduct(d: ProductDraft, generated: string): Product {
    Product(Resolve(d.id, generated), InWarehouse, d.rest)
  }

  /** The completed record for the `i`-th draft of a batch submitted at `now`. */
  function StampOrder(d: OrderDraft, i: nat, now: int, ids: IdSource): Order {
    Order(
      Resolve(d.id, ids.order(i)),
      now,
      InWarehouse,
      seq(|d.products|, j requires 0 <= j < |d.products| => StampProduct(d.products[j], ids.product(i, j))),
      d.rest)
  }

  /** Every draft of the batch completed, in batch order. */
  function StampBatch(batch: seq<OrderDraft>, now: int, ids: IdSource): (orders: seq<Order>)
    ensures |orders| == |batch|
  {
    seq(|batch|, i requires 0 <= i < |batch| => StampOrder(batch[i], i, now, ids))
  }

  /** The ids present in a list of orders. */
  function Ids(orders: seq<Order>): set<string> {
    set o | o in orders :: o.id
  }

  /** A freshly placed order: submitted at `now`, with order and product statuses
      all "In Warehouse", and with product ids and payloads taken from the draft
      unless the draft left an id out. */
  predicate Placed(d: OrderDraft, o: Order, now: int) {
    && (d.id != "" ==> o.id == d.id)
    && o.timestamp == now
    && o.status == InWarehouse
    && o.rest == d.rest
    && |o.products| == |d.products|
    && forall j :: 0 <= j < |o.products| ==>
         && o.products[j].status == InWarehouse
         && o.products[j].rest == d.products[j].rest
         && (d.products[j].id != "" ==> o.products[j].id == d.products[j].id)
  }

  /** Completing a draft places it, and a supplied id is kept as it is. */
  lemma StampOrderPlaces(d: OrderDraft, i: nat, now: int, ids: IdSource)
    ensures Placed(d, StampOrder(d, i, now, ids), now)
    ensures d.id == "" ==> StampOrder(d, i, now, ids).id == ids.order(i)
    ensures forall j :: 0 <= j < |d.products| && d.products[j].id == "" ==>
              StampOrder(d, i, now, ids).products[j].id == ids.product(i, j)
  {
    var o := StampOrder(d, i, now, ids);
    forall j | 0 <= j < |o.products|
      ensures o.products[j] == StampProduct(d.products[j], ids.product(i, j))
    {
    }
  }

  /** The stage name an order should carry at time `now`. */
  function StageName(o: Order, now: int): string {
    CurrentStage(STAGES, now - o.timestamp).name
  }

  /** The stored status agrees with the stage derived from the elapsed time. */
  predicate Synced(o: Order, now: int) {
    o.status == StageName(o, now)
  }

  /** `o2` is `o` with the order's status and every product's status set to `name`,
      and nothing else changed. */
  predicate Relabelled(o: Order, o2: Order, name: string) {
    && o2.id == o.id
    && o2.timestamp == o.timestamp
    && o2.rest == o.rest
    && o2.status == name
    && |o2.products| == |o.products|
    && forall j :: 0 <= j < |o.products| ==>
         o2.products[j] == Product(o.products[j].id, name, o.products[j].rest)
  }

  /** Relabelling an order to its current stage brings it in sync. */
  lemma RelabelledIsSynced(o: Order, o2: Order, now: int)
    requires Relabelled(o, o2, StageName(o, now))
    ensures Synced(o2, now)
  {
  }

  /** The order with its own status and each product's status replaced by `name`. */
  function Relabel(o: Order, name: string): (o2: Order)
    ensures Relabelled(o, o2, name)
  {
    o.(status := name,
       products := seq(|o.products|, j requires 0 <= j < |o.products| => o.products[j].(status := name)))
  }
}

=== FILE: progress.dfy ===
/**
  The per-stage progress vector drawn by the tracking chart and the active marks of
  the timeline (src/pages/Tracking.js).

  Stage `i` occupies the window `[start, end)` with `start` the previous stage's
  duration (0 for the first stage) and `end` its own duration. Its entry is 0 before
  the window, the linear interpolation inside it, clamped to [0, 100], and 100 after it.
  Stage 0's window `[0, 0)` is empty, so its entry jumps from 0 to 100 at elapsed 0.
  Progress is an exact `real`; the chart's floating-point rounding is not modelled.
*/
module Progress {
  import opened Stages

  /** Where stage `i`'s window starts. */
  function StageStart(table: seq<Stage>, i: nat): int
    requires i < |table|
  {
    if i == 0 then 0 else table[i - 1].duration
  }

  /** Where stage `i`'s window ends. */
  function StageEnd(table: seq<Stage>, i: nat): int
    requires i < |table|
  {
    table[i].duration
  }

  function Clamp(v: real): real {
    if v < 0.0 then 0.0 else if v > 100.0 then 100.0 else v
  }

  /** Percentage of an arithmetic ratio. */
  function Percent(part: int, whole: int): real
    requires whole != 0
  {
    part as real / whole as real * 100.0
  }

  /** Reference definition of a stage entry over a non-empty window: the linear ramp
      from `lo` to `hi`, clamped to [0, 100] everywhere. */
  function Ramp(lo: int, hi: int, elapsed: int): real
    requires lo < hi
  {
    Clamp(Percent(elapsed - lo, hi - lo))
  }

  /** The entry of stage `i` in the progress vector at time `elapsed`. The middle
      branch divides by the window length only when the window is non-empty. */
  function StageProgress(table: seq<Stage>, i: nat, elapsed: int): (p: real)
    requires i < |table|
    ensures 0.0 <= p <= 100.0
    ensures p == 100.0 <==> StageStart(table, i) <= elapsed && StageEnd(table, i) <= elapsed
    ensures p == 0.0 <==> (elapsed < StageStart(table, i)
                           || (elapsed == StageStart(table, i) && elapsed < StageEnd(table, i)))
  {
    var start, end := StageStart(table, i), StageEnd(table, i);
    if elapsed < start then 0.0
    else if start <= elapsed < end then
      RatioBelowWhole(elapsed - start, end - start);
      Clamp(Percent(elapsed - start, end - start))
    else 100.0
  }

  /** The chart's data: one progress entry per stage, in table order. */
  function ProgressVector(table: seq<Stage>, elapsed: int): (v: seq<real>)
    ensures |v| == |table|
    ensures forall i :: 0 <= i < |v| ==> 0.0 <= v[i] <= 100.0
  {
    seq(|table|, i requires 0 <= i < |table| => StageProgress(table, i, elapsed))
  }

  /** The timeline marks a stage active when its index is at most the page's stage index. */
  function TimelineActive(table: seq<Stage>, elapsed: int): (active: seq<bool>)
    requires |table| > 0
    ensures |active| == |table|
    ensures active[0]
  {
    var marks := seq(|table|, i requires 0 <= i < |table| => i <= StageIndex(table, elapsed));
    assert marks[0] == (0 <= StageIndex(table, elapsed));
    marks
  }

  // ---------------------------------------------------------------------------
  // Arithmetic of one ratio

  lemma RatioBelowWhole(part: int, whole: int)
    requires 0 <= part < whole
    ensures 0.0 <= Percent(part, whole) < 100.0
    ensures Percent(part, whole) == 0.0 <==> part == 0
  {
    var q := part as real / whole as real;
    assert q * whole as real == part as real;
    assert q < 1.0;
  }

  lemma RatioAtLeastWhole(part: int, whole: int)
    requires 0 < whole <= part
    ensures Percent(part, whole) >= 100.0
  {
    var q := part as real / whole as real;
    assert q * whole as real == part as real;
  }

  lemma RatioMonotone(a: int, b: int, whole: int)
    requires a <= b && 0 < whole
    ensures Percent(a, whole) <= Percent(b, whole)
  {
    var qa, qb := a as real / whole as real, b as real / whole as real;
    assert qa * whole as real == a as real;
    assert qb * whole as real == b as real;
  }

  // ---------------------------------------------------------------------------
  // Properties of one entry

  /** The three-branch code computes the clamped ramp over a non-empty window, and a
      0/100 step at the window's start over an empty (or inverted) one. */
  lemma StageProgressIsRamp(table: seq<Stage>, i: nat, elapsed: int)
    requires i < |table|
    ensures StageStart(table, i) < StageEnd(table, i) ==>
      StageProgress(table, i, elapsed) == Ramp(StageStart(table, i), StageEnd(table, i), elapsed)
    ensures StageEnd(table, i) <= StageStart(table, i) ==>
      StageProgress(table, i, elapsed) == if elapsed < StageStart(table, i) then 0.0 else 100.0
  {
    var start, end := StageStart(table, i), StageEnd(table, i);
    if start < end {
      if elapsed < start {
        RatioMonotone(elapsed - start, 0, end - start);
      } else if elapsed >= end {
        RatioAtLeastWhole(elapsed - start, end - start);
      }
    }
  }

  /** For a fixed stage, the entry never decreases as time passes. */
  lemma StageProgressMonotoneInTime(table: seq<Stage>, i: nat, e1: int, e2: int)
    requires i < |table|
    requires e1 <= e2
    ensures StageProgress(table, i, e1) <= StageProgress(table, i, e2)
  {
    var start, end := StageStart(table, i), StageEnd(table, i);
    if start <= e1 < end && start <= e2 < end {
      RatioMonotone(e1 - start, e2 - start, end - start);
    }
  }

  /** The first stage of a table that starts at 0 is complete from elapsed 0 on and
      untouched before; its empty window never reaches the division. */
  lemma FirstStageIsStep(table: seq<Stage>, elapsed: int)
    requires |table| > 0 && table[0].duration == 0
    ensures StageProgress(table, 0, elapsed) == if elapsed < 0 then 0.0 else 100.0
    ensures ProgressVector(table, elapsed)[0] == 100.0 <==> elapsed >= 0
  {
  }

  // ---------------------------------------------------------------------------
  // Properties of the whole vector

  /** For a fixed time, a later stage is never further along than an earlier one. */
  lemma VectorNonIncreasing(table: seq<Stage>, elapsed: int, i: nat, j: nat)
    requires WellFormed(table)
    requires i <= j < |table|
    ensures ProgressVector(table, elapsed)[j] <= ProgressVector(table, elapsed)[i]
  {
    var v := ProgressVector(table, elapsed);
    if i < j && v[j] > 0.0 {
      // stage j has started, so stage i's window [start_i, end_i) lies behind it
      assert StageEnd(table, i) <= StageStart(table, j);
      assert v[i] == 100.0;
    }
  }

  /** The vector agrees with the page's stage index `k`: stages before `k` are complete,
      stages after it are untouched, and stage `k` itself is incomplete unless the
      elapsed time has passed the last threshold, in which case every entry is 100. */
  lemma VectorAgreesWithStageIndex(table: seq<Stage>, elapsed: int)
    requires WellFormed(table)
    ensures var v, k := ProgressVector(table, elapsed), StageIndex(table, elapsed);
      && (forall i :: 0 <= i < k ==> v[i] == 100.0)
      && (forall i :: k < i < |table| ==> v[i] == 0.0)
      && (elapsed < table[|table| - 1].duration ==> v[k] < 100.0)
      && (elapsed >= table[|table| - 1].duration ==> forall i :: 0 <= i < |table| ==> v[i] == 100.0)
  {
    var v, k := ProgressVector(table, elapsed), StageIndex(table, elapsed);
    forall i | 0 <= i < k
      ensures v[i] == 100.0
    {
      assert StageStart(table, i) <= StageEnd(table, i);
    }
    forall i | k < i < |table|
      ensures v[i] == 0.0
    {
      assert table[k].duration <= StageStart(table, i);
    }
    if elapsed >= table[|table| - 1].duration {
      forall i | 0 <= i < |table|
        ensures v[i] == 100.0
      {
        assert StageStart(table, i) <= StageEnd(table, i) <= table[|table| - 1].duration;
      }
    }
  }

  /** A timeline stage is active exactly when it is the first stage or its window has
      been reached. */
  lemma TimelineActiveIffReached(table: seq<Stage>, elapsed: int, i: nat)
    requires WellFormed(table)
    requires i < |table|
    ensures TimelineActive(table, elapsed)[i] <==> i == 0 || StageStart(table, i) <= elapsed
  {
    var k := StageIndex(table, elapsed);
    assert TimelineActive(table, elapsed)[i] == (i <= k);
    if 0 < i <= k {
      assert table[i - 1].duration <= elapsed;
    } else if k < i {
      assert elapsed < table[k].duration <= table[i - 1].duration;
    }
  }

  /** The chart at 4000 ms for the concrete table. */
  lemma VectorAt4000()
    ensures ProgressVector(STAGES, 4000) == [100.0, 80.0, 0.0, 0.0, 0.0]
  {
    var v := ProgressVector(STAGES, 4000);
    assert v[1] == Percent(4000, 5000);
  }

  /** From the last threshold on, the concrete chart is full. */
  lemma VectorFullAfterLastStage(elapsed: int)
    requires elapsed >= 20000
    ensures ProgressVector(STAGES, elapsed) == [100.0, 100.0, 100.0, 100.0, 100.0]
  {
    StagesShape();
    VectorAgreesWithStageIndex(STAGES, elapsed);
  }
}

=== FILE: reducer.dfy ===
/**
  `trackingReducer` (src/context/TrackingContext.js): a pure transition from the current
  order list and an action to the next order list plus the write it makes to storage.

  The reducer's ambient inputs are parameters: the clock reading `now`, the id source
  for ids the source would generate, and what parsing the stored list yields.
*/
module Reducer {
  import opened Seqs
  import opened Stages
  import opened Orders

  datatype State = State(orders: seq<Order>)

  /** What parsing the stored entry yields: a list, a falsy value (nothing stored,
      read as the empty list), or a parse error. */
  datatype ParseResult = Parsed(orders: seq<Order>) | ParsedFalsy | ParseFailed

  datatype Action =
    | AddOrder(batch: seq<OrderDraft>)
    | UpdateOrderStatus(id: string)
    | DeleteOrder(id: string)
    | LoadOrders
    | Unknown(kind: string)

  /** The reducer's storage side effect: none, `setItem` of a whole list, or `removeItem`. */
  datatype Effect = NoWrite | SetItem(orders: seq<Order>) | RemoveItem

  datatype Transition = Transition(state: State, effect: Effect)

  datatype Env = Env(now: int, ids: IdSource, stored: ParseResult)

  /** Orders whose id is not among `existing`. */
  function Fresh(existing: set<string>): Order -> bool {
    (o: Order) => o.id !in existing
  }

  /** Orders whose id differs from `id`. */
  function OtherThan(id: string): Order -> bool {
    (o: Order) => o.id != id
  }

  /** The new orders appended by ADD_ORDER: the completed drafts whose ids are not
      already in the store. Ids are not compared within the batch. */
  function Unique(s: State, batch: seq<OrderDraft>, now: int, ids: IdSource): seq<Order> {
    var existing := Ids(s.orders);
    Keep(StampBatch(batch, now, ids), Fresh(existing))
  }

  // ---------------------------------------------------------------------------
  // The four actions

  /** ADD_ORDER. */
  function AddOrders(s: State, batch: seq<OrderDraft>, now: int, ids: IdSource): (t: Transition)
    ensures t.effect.NoWrite? <==>
              forall i :: 0 <= i < |batch| ==> StampOrder(batch[i], i, now, ids).id in Ids(s.orders)
    ensures t.effect.NoWrite? ==> t.state == s
    ensures !t.effect.RemoveItem?
    ensures t.effect.SetItem? ==> t.effect.orders == t.state.orders
    ensures |s.orders| <= |t.state.orders| && t.state.orders[..|s.orders|] == s.orders
    ensures forall o :: o in t.state.orders[|s.orders|..] ==>
              o.id !in Ids(s.orders) && exists i :: 0 <= i < |batch| && Placed(batch[i], o, now)
    ensures forall i :: 0 <= i < |batch| && StampOrder(batch[i], i, now, ids).id !in Ids(s.orders) ==>
              StampOrder(batch[i], i, now, ids) in t.state.orders[|s.orders|..]
    ensures forall o :: multiset(t.state.orders[|s.orders|..])[o] ==
              if o.id in Ids(s.orders) then 0 else multiset(StampBatch(batch, now, ids))[o]
  {
    var unique := Unique(s, batch, now, ids);
    UniqueSpec(s, batch, now, ids);
    UniqueCounts(s, batch, now, ids);
    if |unique| == 0 then
      assert s.orders[|s.orders|..] == [];
      assert multiset(unique) == multiset{};
      Transition(s, NoWrite)
    else
      var orders := s.orders + unique;
      assert orders[|s.orders|..] == unique;
      Transition(State(orders), SetItem(orders))
  }

  lemma UniqueSpec(s: State, batch: seq<OrderDraft>, now: int, ids: IdSource)
    ensures var unique := Unique(s, batch, now, ids);
      && (|unique| == 0 <==> forall i :: 0 <= i < |batch| ==> StampOrder(batch[i], i, now, ids).id in Ids(s.orders))
      && (forall o :: o in unique ==> o.id !in Ids(s.orders) && exists i :: 0 <= i < |batch| && Placed(batch[i], o, now))
      && (forall i :: 0 <= i < |batch| && StampOrder(batch[i], i, now, ids).id !in Ids(s.orders) ==>
            StampOrder(batch[i], i, now, ids) in unique)
  {
    var existing := Ids(s.orders);
    var unique := Unique(s, batch, now, ids);
    var stamped := StampBatch(batch, now, ids);
    assert forall i :: 0 <= i < |batch| ==> stamped[i] == StampOrder(batch[i], i, now, ids);
    forall o | o in unique
      ensures o.id !in existing && exists i :: 0 <= i < |batch| && Placed(batch[i], o, now)
    {
      assert o in stamped && Fresh(existing)(o);
      var i :| 0 <= i < |batch| && stamped[i] == o;
      StampOrderPlaces(batch[i], i, now, ids);
    }
    forall i | 0 <= i < |batch| && StampOrder(batch[i], i, now, ids).id !in existing
      ensures StampOrder(batch[i], i, now, ids) in unique
    {
      assert stamped[i] in stamped && Fresh(existing)(stamped[i]);
    }
  }

  /** Each completed draft with a fresh id is accepted exactly as often as the batch
      yields it, and nothing else is accepted. */
  lemma UniqueCounts(s: State, batch: seq<OrderDraft>, now: int, ids: IdSource)
    ensures forall o :: multiset(Unique(s, batch, now, ids))[o] ==
              if o.id in Ids(s.orders) then 0 else multiset(StampBatch(batch, now, ids))[o]
  {
  }

  /** The status UPDATE_ORDER_STATUS gives one order: a matching order whose status
      disagrees with its current stage is relabelled; every other order is kept as is. */
  function Refresh(o: Order, id: string, now: int): Order {
    if o.id == id && o.status != StageName(o, now) then Relabel(o, StageName(o, now)) else o
  }

  /** UPDATE_ORDER_STATUS. */
  function UpdateStatus(s: State, id: string, now: int): (t: Transition)
    ensures |t.state.orders| == |s.orders|
    ensures t.effect == SetItem(t.state.orders)
    ensures forall i :: 0 <= i < |s.orders| && s.orders[i].id != id ==> t.state.orders[i] == s.orders[i]
    ensures forall i :: 0 <= i < |s.orders| && Synced(s.orders[i], now) ==> t.state.orders[i] == s.orders[i]
    ensures forall i :: 0 <= i < |s.orders| && s.orders[i].id == id && !Synced(s.orders[i], now) ==>
              Relabelled(s.orders[i], t.state.orders[i], StageName(s.orders[i], now))
    ensures forall i :: 0 <= i < |s.orders| && s.orders[i].id == id ==> Synced(t.state.orders[i], now)
  {
    var orders := seq(|s.orders|, i requires 0 <= i < |s.orders| => Refresh(s.orders[i], id, now));
    Transition(State(orders), SetItem(orders))
  }

  /** DELETE_ORDER. */
  function RemoveOrders(s: State, id: string): (t: Transition)
    ensures t.effect == SetItem(t.state.orders)
    ensures forall o :: o in t.state.orders <==> o in s.orders && o.id != id
    ensures forall o: Order :: o.id != id ==> multiset(t.state.orders)[o] == multiset(s.orders)[o]
    ensures id !in Ids(s.orders) ==> t.state == s
  {
    var orders := Keep(s.orders, OtherThan(id));
    assert id !in Ids(s.orders) ==> orders == s.orders by {
      if id !in Ids(s.orders) {
        KeepAll(s.orders, OtherThan(id));
      }
    }
    Transition(State(orders), SetItem(orders))
  }

  /** LOAD_ORDERS. A successful parse replaces the list and writes nothing; a failed
      one empties the list and removes the stored entry. */
  function Reload(s: State, stored: ParseResult): (t: Transition)
    ensures t.state.orders == if stored.Parsed? then stored.orders else []
    ensures t.effect.RemoveItem? <==> stored.ParseFailed?
    ensures !t.effect.SetItem?
  {
    match stored
    case Parsed(orders) => Transition(State(orders), NoWrite)
    case ParsedFalsy => Transition(State([]), NoWrite)
    case ParseFailed => Transition(State([]), RemoveItem)
  }

  /** `trackingReducer`. Every write stores exactly the new list; UPDATE_ORDER_STATUS
      and DELETE_ORDER always write; an unknown action changes nothing. */
  function TrackingReducer(s: State, a: Action, env: Env): (t: Transition)
    ensures t.effect.SetItem? ==> t.effect.orders == t.state.orders
    ensures t.effect.RemoveItem? ==> a.LoadOrders? && t.state.orders == []
    ensures a.UpdateOrderStatus? || a.DeleteOrder? ==> t.effect.SetItem?
    ensures t.effect.NoWrite? ==> a.AddOrder? || a.LoadOrders? || a.Unknown?
    ensures a.Unknown? ==> t == Transition(s, NoWrite)
  {
    match a
    case AddOrder(batch) => AddOrders(s, batch, env.now, env.ids)
    case UpdateOrderStatus(id) => UpdateStatus(s, id, env.now)
    case DeleteOrder(id) => RemoveOrders(s, id)
    case LoadOrders => Reload(s, env.stored)
    case Unknown(_) => Transition(s, NoWrite)
  }

  // ---------------------------------------------------------------------------
  // Properties relating several calls

  /** ADD_ORDER appends the accepted drafts in batch order. */
  lemma AddOrdersKeepsBatchOrder(s: State, batch: seq<OrderDraft>, now: int, ids: IdSource, i: nat, j: nat)
    requires i < j < |batch|
    requires StampOrder(batch[i], i, now, ids).id !in Ids(s.orders)
    requires StampOrder(batch[j], j, now, ids).id !in Ids(s.orders)
    ensures exists a, b ::
              && |s.orders| <= a < b < |AddOrders(s, batch, now, ids).state.orders|
              && AddOrders(s, batch, now, ids).state.orders[a] == StampOrder(batch[i], i, now, ids)
              && AddOrders(s, batch, now, ids).state.orders[b] == StampOrder(batch[j], j, now, ids)
  {
    var existing := Ids(s.orders);
    var stamped := StampBatch(batch, now, ids);
    assert stamped[i] == StampOrder(batch[i], i, now, ids);
    assert stamped[j] == StampOrder(batch[j], j, now, ids);
    KeepPreservesOrder(stamped, Fresh(existing), i, j);
    var unique := Unique(s, batch, now, ids);
    assert AddOrders(s, batch, now, ids).state.orders[|s.orders|..] == unique;
  }

  /** Deduplication is only against the store: two drafts with the same fresh id are
      both appended. */
  lemma AddOrdersKeepsBatchDuplicates(s: State, d: OrderDraft, now: int, ids: IdSource)
    requires d.id != "" && d.id !in Ids(s.orders)
    ensures AddOrders(s, [d, d], now, ids).state.orders ==
      s.orders + [StampOrder(d, 0, now, ids), StampOrder(d, 1, now, ids)]
    ensures StampOrder(d, 0, now, ids).id == StampOrder(d, 1, now, ids).id == d.id
  {
    var existing := Ids(s.orders);
    var a, b := StampOrder(d, 0, now, ids), StampOrder(d, 1, now, ids);
    var stamped := StampBatch([d, d], now, ids);
    assert stamped == [a, b];
    assert a.id == d.id && b.id == d.id;
    assert [a, b][1..] == [b];
    assert [b][1..] == [];
    assert Keep([b], Fresh(existing)) == [b];
    assert Unique(s, [d, d], now, ids) == [a, b];
  }

  /** A just-added order says "In Warehouse" although at elapsed 0 its stage is
      "Shipped", so it is out of date from the moment it is stored. */
  lemma AddedOrdersStartOutOfDate(s: State, batch: seq<OrderDraft>, now: int, ids: IdSource)
    ensures forall o :: o in AddOrders(s, batch, now, ids).state.orders[|s.orders|..] ==> !Synced(o, now)
  {
    StagesNames(0);
  }

  /** UPDATE_ORDER_STATUS is idempotent for a fixed clock reading. */
  lemma UpdateStatusIdempotent(s: State, id: string, now: int)
    ensures var t := UpdateStatus(s, id, now);
      UpdateStatus(t.state, id, now) == t
  {
    var t := UpdateStatus(s, id, now);
    var t2 := UpdateStatus(t.state, id, now);
    assert t2.state.orders == t.state.orders;
  }

  /** DELETE_ORDER keeps the surviving orders in their relative order. */
  lemma RemoveOrdersKeepsOrder(s: State, id: string, i: nat, j: nat)
    requires i < j < |s.orders|
    requires s.orders[i].id != id && s.orders[j].id != id
    ensures var kept := RemoveOrders(s, id).state.orders;
      exists a, b :: 0 <= a < b < |kept| && kept[a] == s.orders[i] && kept[b] == s.orders[j]
  {
    KeepPreservesOrder(s.orders, OtherThan(id), i, j);
  }

  /** Deleting the only order leaves an empty list, and storage holds the empty list. */
  lemma RemoveOnlyOrder(o: Order)
    ensures RemoveOrders(State([o]), o.id) == Transition(State([]), SetItem([]))
  {
    assert [o][1..] == [];
  }

  // ---------------------------------------------------------------------------
  // The background updater

  /** The progress of a background tick over `s` after visiting the first `i` orders:
      `t` keeps the positions of `s`, orders already in sync are untouched, others are
      untouched or relabelled to their stage, and the visited prefix is in sync. */
  predicate TickProgress(s: State, t: State, now: int, i: nat) {
    && i <= |s.orders|
    && |t.orders| == |s.orders|
    && (forall j :: 0 <= j < |s.orders| && Synced(s.orders[j], now) ==> t.orders[j] == s.orders[j])
    && (forall j :: 0 <= j < |s.orders| && !Synced(s.orders[j], now) ==>
          t.orders[j] == s.orders[j] || Relabelled(s.orders[j], t.orders[j], StageName(s.orders[j], now)))
    && (forall j :: 0 <= j < i ==> Synced(t.orders[j], now))
  }

  /** Dispatching UPDATE_ORDER_STATUS for the `i`-th snapshot order advances the tick. */
  lemma TickStep(s: State, t: State, now: int, i: nat)
    requires TickProgress(s, t, now, i) && i < |s.orders|
    ensures !Synced(s.orders[i], now) ==> TickProgress(s, UpdateStatus(t, s.orders[i].id, now).state, now, i + 1)
    ensures Synced(s.orders[i], now) ==> TickProgress(s, t, now, i + 1)
  {
    if !Synced(s.orders[i], now) {
      var t2 := UpdateStatus(t, s.orders[i].id, now).state;
      forall j | 0 <= j < |s.orders| && Synced(s.orders[j], now)
        ensures t2.orders[j] == s.orders[j]
      {
        assert t.orders[j] == s.orders[j];
      }
      forall j | 0 <= j < |s.orders| && !Synced(s.orders[j], now)
        ensures t2.orders[j] == s.orders[j] || Relabelled(s.orders[j], t2.orders[j], StageName(s.orders[j], now))
      {
        if t.orders[j] != s.orders[j] {
          RelabelledIsSynced(s.orders[j], t.orders[j], now);
        }
      }
      forall j | 0 <= j < i + 1
        ensures Synced(t2.orders[j], now)
      {
        if j < i {
          assert Synced(t.orders[j], now);
        }
      }
    }
  }

  /** One tick of the background updater: every order of the snapshot whose status
      disagrees with its stage triggers UPDATE_ORDER_STATUS for its id, all at the
      same clock reading. The storage writes of these dispatches are not tracked here. */
  method BackgroundTick(s: State, now: int) returns (t: State)
    ensures |t.orders| == |s.orders|
    ensures forall i :: 0 <= i < |t.orders| ==> Synced(t.orders[i], now)
    ensures forall i :: 0 <= i < |t.orders| && Synced(s.orders[i], now) ==> t.orders[i] == s.orders[i]
    ensures forall i :: 0 <= i < |t.orders| && !Synced(s.orders[i], now) ==>
              Relabelled(s.orders[i], t.orders[i], StageName(s.orders[i], now))
  {
    t := s;
    var i := 0;
    while i < |s.orders|
      invariant TickProgress(s, t, now, i)
    {
      TickStep(s, t, now, i);
      if !Synced(s.orders[i], now) {
        t := UpdateStatus(t, s.orders[i].id, now).state;
      }
      i := i + 1;
    }
  }
}

=== FILE: seqs.dfy ===
/** Sequence helpers shared by the reducer: filtering a list by a predicate. */
module Seqs {

  /** The elements of `s` satisfying `p`, in their original order. */
  function Keep<T(!new)>(s: seq<T>, p: T -> bool): (r: seq<T>)
    ensures |r| <= |s|
    ensures forall x :: x in r <==> x in s && p(x)
    ensures forall x :: multiset(r)[x] == if p(x) then multiset(s)[x] else 0
  {
    if |s| == 0 then []
    else
      assert s == [s[0]] + s[1..];
      (if p(s[0]) then [s[0]] else []) + Keep(s[1..], p)
  }

  /** Filtering distributes over concatenation, so the kept elements keep their relative order. */
  lemma {:induction false} KeepAppend<T(!new)>(a: seq<T>, b: seq<T>, p: T -> bool)
    ensures Keep(a + b, p) == Keep(a, p) + Keep(b, p)
  {
    if |a| == 0 {
      assert a + b == b;
    } else {
      assert (a + b)[1..] == a[1..] + b;
      KeepAppend(a[1..], b, p);
    }
  }

  /** A filter that rejects nothing returns its input. */
  lemma {:induction false} KeepAll<T(!new)>(s: seq<T>, p: T -> bool)
    requires forall x :: x in s ==> p(x)
    ensures Keep(s, p) == s
  {
    if |s| > 0 {
      KeepAll(s[1..], p);
    }
  }

  /** Two kept elements appear in the result in the order they had in the input. */
  lemma KeepPreservesOrder<T(!new)>(s: seq<T>, p: T -> bool, i: nat, j: nat)
    requires i < j < |s|
    requires p(s[i]) && p(s[j])
    ensures exists a, b :: 0 <= a < b < |Keep(s, p)| && Keep(s, p)[a] == s[i] && Keep(s, p)[b] == s[j]
  {
    var front, back := s[..j], s[j..];
    assert s == front + back;
    KeepAppend(front, back, p);
    var kf, kb := Keep(front, p), Keep(back, p);
    assert front[i] == s[i];
    assert s[i] in kf;
    var a :| 0 <= a < |kf| && kf[a] == s[i];
    assert back[0] == s[j];
    assert kb == [s[j]] + Keep(back[1..], p);
    assert (kf + kb)[a] == s[i];
    assert (kf + kb)[|kf|] == s[j];
  }
}

=== FILE: stages.dfy ===
/**
  The shipment stage table and the stage lookup (src/context/TrackingContext.js).

  A stage's `duration` is a cumulative threshold in milliseconds measured from the
  order's creation. The lookup used by both the reducer and the tracking page is
  "the first stage whose duration is strictly greater than the elapsed time, or the
  last stage when there is none". It is written here once for an arbitrary table and
  then pinned down for the concrete five-entry table.
*/
module Stages {
  import opened Options

  datatype Stage = Stage(name: string, duration: int)

  /** The five stages of src/context/TrackingContext.js, in table order. */
  const STAGES: seq<Stage> := [
    Stage("In Warehouse", 0),
    Stage("Shipped", 5000),
    Stage("Arrived in Country", 10000),
    Stage("At Post Office", 15000),
    Stage("Delivered", 20000)
  ]

  /** Durations never decrease along the table. */
  predicate NonDecreasing(table: seq<Stage>) {
    forall i, j :: 0 <= i <= j < |table| ==> table[i].duration <= table[j].duration
  }

  /** The shape the progress computation relies on: a non-empty, non-decreasing table
      that starts at or after time 0 (stage 0's window starts at 0). */
  predicate WellFormed(table: seq<Stage>) {
    |table| > 0 && table[0].duration >= 0 && NonDecreasing(table)
  }

  /** The first index whose duration exceeds `elapsed`, or -1 when there is none
      (the page's index search). */
  function FindIndex(table: seq<Stage>, elapsed: int): (r: int)
    ensures -1 <= r < |table|
    ensures r == -1 <==> forall i :: 0 <= i < |table| ==> table[i].duration <= elapsed
    ensures r >= 0 ==> elapsed < table[r].duration
    ensures r >= 0 ==> forall i :: 0 <= i < r ==> table[i].duration <= elapsed
  {
    if |table| == 0 then -1
    else if elapsed < table[0].duration then 0
    else
      var r := FindIndex(table[1..], elapsed);
      assert forall i :: 1 <= i < |table| ==> table[i] == table[1..][i - 1];
      if r == -1 then -1 else r + 1
  }

  /** The first stage whose duration exceeds `elapsed`, if any (the reducer's search). */
  function Find(table: seq<Stage>, elapsed: int): (r: Option<Stage>)
    ensures r.None? <==> forall i :: 0 <= i < |table| ==> table[i].duration <= elapsed
    ensures r.Some? ==> r.value in table && elapsed < r.value.duration
  {
    if |table| == 0 then None
    else if elapsed < table[0].duration then Some(table[0])
    else
      assert forall i :: 1 <= i < |table| ==> table[i] == table[1..][i - 1];
      Find(table[1..], elapsed)
  }

  /** The stage the reducer and the background updater assign: the first stage whose
      duration exceeds `elapsed`, or the last stage when there is none. */
  function CurrentStage(table: seq<Stage>, elapsed: int): (s: Stage)
    requires |table| > 0
    ensures s in table
    ensures elapsed < s.duration || s == table[|table| - 1]
    ensures forall i ::
              (0 <= i < |table| && elapsed < table[i].duration &&
               forall j :: 0 <= j < i ==> table[j].duration <= elapsed)
              ==> s == table[i]
  {
    FindAgreesWithFindIndex(table, elapsed);
    Find(table, elapsed).GetOr(table[|table| - 1])
  }

  /** The index the tracking page displays: the `findIndex` result, with -1 mapped
      to the last index. */
  function StageIndex(table: seq<Stage>, elapsed: int): (k: nat)
    requires |table| > 0
    ensures k < |table|
    ensures forall i :: 0 <= i < k ==> table[i].duration <= elapsed
    ensures elapsed < table[k].duration || k == |table| - 1
  {
    var i := FindIndex(table, elapsed);
    if i == -1 then |table| - 1 else i
  }

  /** The index falls back to the last stage exactly when no duration exceeds `elapsed`. */
  lemma StageIndexFallback(table: seq<Stage>, elapsed: int)
    requires |table| > 0
    ensures FindIndex(table, elapsed) == -1 <==> forall i :: 0 <= i < |table| ==> table[i].duration <= elapsed
    ensures FindIndex(table, elapsed) == -1 ==> StageIndex(table, elapsed) == |table| - 1
  {
  }

  /** Stages only advance: a later elapsed time never shows an earlier stage index.
      This holds for any table, sorted or not, because the index is a first match. */
  lemma StageIndexMonotone(table: seq<Stage>, e1: int, e2: int)
    requires |table| > 0
    requires e1 <= e2
    ensures StageIndex(table, e1) <= StageIndex(table, e2)
  {
  }

  /** `find` and `findIndex` agree: `find` returns the stage at the first matching index. */
  lemma {:induction false} FindAgreesWithFindIndex(table: seq<Stage>, elapsed: int)
    ensures Find(table, elapsed).Some? <==> FindIndex(table, elapsed) >= 0
    ensures FindIndex(table, elapsed) >= 0 ==> Find(table, elapsed).value == table[FindIndex(table, elapsed)]
  {
    if |table| > 0 && table[0].duration <= elapsed {
      FindAgreesWithFindIndex(table[1..], elapsed);
    }
  }

  /** The page's stage index names the same stage the reducer assigns. */
  lemma PageAgreesWithReducer(table: seq<Stage>, elapsed: int)
    requires |table| > 0
    ensures table[StageIndex(table, elapsed)] == CurrentStage(table, elapsed)
  {
    FindAgreesWithFindIndex(table, elapsed);
  }

  /** The concrete table: five stages, durations 0, 5000, 10000, 15000, 20000,
      non-decreasing and starting at 0. */
  lemma StagesShape()
    ensures |STAGES| == 5
    ensures STAGES[0].duration == 0 && STAGES[1].duration == 5000 && STAGES[2].duration == 10000
    ensures STAGES[3].duration == 15000 && STAGES[4].duration == 20000
    ensures WellFormed(STAGES)
  {
  }

  /** The stage index for the concrete table, range by range. Note the empty first
      window: index 0 is shown only for negative elapsed times, and index 1 already
      at elapsed 0. */
  lemma StagesIndexTable(elapsed: int)
    ensures StageIndex(STAGES, elapsed) ==
      if elapsed < 0 then 0
      else if elapsed < 5000 then 1
      else if elapsed < 10000 then 2
      else if elapsed < 15000 then 3
      else 4
  {
    var k := StageIndex(STAGES, elapsed);
    if k >= 1 { assert STAGES[0].duration <= elapsed; }
    if k >= 2 { assert STAGES[1].duration <= elapsed; }
    if k >= 3 { assert STAGES[2].duration <= elapsed; }
    if k >= 4 { assert STAGES[3].duration <= elapsed; }
  }

  /** Which stage name the reducer assigns, for the concrete table: "In Warehouse"
      only for a negative elapsed time, "Delivered" from 15000 ms on. */
  lemma StagesNames(elapsed: int)
    ensures CurrentStage(STAGES, elapsed).name == "In Warehouse" <==> elapsed < 0
    ensures CurrentStage(STAGES, elapsed).name == "Shipped" <==> 0 <= elapsed < 5000
    ensures CurrentStage(STAGES, elapsed).name == "Arrived in Country" <==> 5000 <= elapsed < 10000
    ensures CurrentStage(STAGES, elapsed).name == "At Post Office" <==> 10000 <= elapsed < 15000
    ensures CurrentStage(STAGES, elapsed).name == "Delivered" <==> 15000 <= elapsed
  {
    PageAgreesWithReducer(STAGES, elapsed);
    StagesIndexTable(elapsed);
  }
}

=== FILE: store.dfy ===
/**
  The order list together with its persisted copy (src/context/TrackingContext.js).

  Storage is a value: nothing stored, the serialisation of an order list, or content
  that does not parse. Serialising a list and parsing it back is taken to give the same
  list. Each dispatch runs the reducer and then applies its storage effect.
*/
module Store {
  import opened Orders
  import opened Reducer

  datatype Storage = Absent | Written(orders: seq<Order>) | Garbage

  /** What the LOAD_ORDERS branch reads from storage. */
  function Parse(st: Storage): ParseResult {
    match st
    case Absent => ParsedFalsy
    case Written(orders) => Parsed(orders)
    case Garbage => ParseFailed
  }

  /** Storage after a reducer effect. */
  function Persist(st: Storage, e: Effect): Storage {
    match e
    case NoWrite => st
    case SetItem(orders) => Written(orders)
    case RemoveItem => Absent
  }

  datatype World = World(state: State, storage: Storage)

  /** One dispatched action with the clock reading and ids it sees. */
  datatype Step = Step(action: Action, now: int, ids: IdSource)

  /** Storage holds exactly the in-memory list, or nothing while the list is empty. */
  predicate InSync(w: World) {
    w.storage == Written(w.state.orders) || (w.storage == Absent && w.state.orders == [])
  }

  /** `dispatch`: the reducer's transition, with its write applied to storage. */
  function Dispatch(w: World, step: Step): (w2: World)
    ensures InSync(w) ==> InSync(w2)
    ensures step.action.LoadOrders? ==> InSync(w2)
    ensures InSync(w) && step.action.LoadOrders? ==> w2 == w
  {
    var t := TrackingReducer(w.state, step.action, Env(step.now, step.ids, Parse(w.storage)));
    World(t.state, Persist(w.storage, t.effect))
  }

  /** A sequence of dispatches, in order. */
  function Run(w: World, steps: seq<Step>): World
    decreases |steps|
  {
    if |steps| == 0 then w else Run(Dispatch(w, steps[0]), steps[1..])
  }

  /** Once in sync, every later sequence of dispatches stays in sync. */
  lemma {:induction false} RunKeepsInSync(w: World, steps: seq<Step>)
    requires InSync(w)
    ensures InSync(Run(w, steps))
    decreases |steps|
  {
    if |steps| > 0 {
      RunKeepsInSync(Dispatch(w, steps[0]), steps[1..]);
    }
  }

  /** Reloading after the initial load and any sequence of dispatches reproduces the
      list last persisted, which is the list in memory. */
  lemma ReloadRestoresState(w: World, first: Step, steps: seq<Step>, last: Step)
    requires first.action.LoadOrders? && last.action.LoadOrders?
    ensures Dispatch(Run(Dispatch(w, first), steps), last).state == Run(Dispatch(w, first), steps).state
  {
    RunKeepsInSync(Dispatch(w, first), steps);
  }

  /** A stored entry that does not parse is cleared and the list emptied. */
  lemma LoadCorruptStorage(w: World, step: Step)
    requires w.storage == Garbage && step.action.LoadOrders?
    ensures Dispatch(w, step) == World(State([]), Absent)
  {
  }

  /** Adding only ids already present is a no-op: neither the list nor storage changes. */
  lemma AddDuplicatesIsNoOp(w: World, step: Step)
    requires step.action.AddOrder?
    requires forall i :: 0 <= i < |step.action.batch| ==>
               StampOrder(step.action.batch[i], i, step.now, step.ids).id in Ids(w.state.orders)
    ensures Dispatch(w, step) == w
  {
  }

  /** UPDATE_ORDER_STATUS rewrites storage even when no order changes. */
  lemma UpdateWritesEvenWhenUnchanged(w: World, step: Step)
    requires step.action.UpdateOrderStatus?
    requires forall o :: o in w.state.orders && o.id == step.action.id ==> Synced(o, step.now)
    ensures Dispatch(w, step) == World(w.state, Written(w.state.orders))
  {
    var t := UpdateStatus(w.state, step.action.id, step.now);
    assert t.state.orders == w.state.orders;
  }
}
